=== FILE: README.md ===
# User CRUD backend — a Dafny model of its decision layer

The system is a small HTTP backend for one `user` entity. Its routes are guarded by a bearer token. A request handler validates the input and calls a `UserStore`. The store runs parameterised SQL against a `users` table and hashes passwords with bcrypt plus a server-wide pepper. The handler wraps every outcome in a uniform JSON envelope (`success`, `failed` or `error`).

This project models that decision layer as pure functions over an immutable table. The external pieces are abstract:

- The `users` table is a `map<string, User>` keyed by id. It has a `reachable` flag: when the flag is false, every store call throws. Inserting an id that is already present throws a duplicate-key error. Each SQL statement of `UserStore` becomes one map operation (module `UserModel`).
- bcrypt is a pair of function values, `hashSync` and `compareSync` (module `Crypto`). What the model needs from them is stated as two predicates, and lemmas take these as hypotheses:
  - `Sound`: a hash matches its own input.
  - `Binding`: a hash matches no other input.
- The per-hash salt and the uuid of a new user are random. Here they are caller-supplied parameters (`salt`, `freshId`).
- JWT signature checking is the function value `jwtVerify`. It returns the decoded claims, or nothing when verification throws.
- The email syntax check is the function value `isEmail`.
- The handlers of `src/handlers/user.ts` map (table, request) to (table, response), with the validation chains folded in (module `UserHandlers`). `verifyAuthToken` is the token gate (module `VerifyToken`). The routes tie the two together (module `App`).
- The envelope classes are one datatype. Their JSON form, where an `undefined` field is dropped, is `ToWire`, and it has an inverse (module `ApiResponse`).
- The steps the test suites drive are lemmas over the table state (module `Scenarios`, and `UserModel.CreateChangeDelete`). Where a lemma states more than a test checks, its row says so.

Two facts about the code that shape the model:

- The code calls `conn.release()` only on the success path (for example src/models/user.ts:41), so a connection taken by a failing query is never returned. The pool is not modelled.
- The tests send `Bearer <token>` (src/jest/api.test.ts:30), but the code never checks the first word: the token is whatever follows the first space, up to the next space.

## Model

| member | source | states |
|---|---|---|
| `Crypto.PepperedInjective` | src/models/user.ts:33-36 | appending the same pepper to two passwords gives equal hash inputs only if the passwords are equal |
| `Crypto.HashMatchesOwnPassword` | src/handlers/user.ts:118 | under a sound hasher, a password checks against a hash made from that password, whatever the salt |
| `Crypto.HashRejectsOtherPassword` | src/handlers/user.ts:118 | under a binding hasher, a password does not check against a hash made from a different password, even with the pepper appended to both |
| `ApiResponse.Status` | src/common/apiResponse.ts:8-39 | the `status` string is "success", "failed" or "error" exactly for the success, failed and error envelopes |
| `ApiResponse.ToWire` | src/common/apiResponse.ts:8-39 | the JSON object always has `status`; it has `data` only for a success given data, `errors` only for a failure given errors, `message` (verbatim) for failed and error envelopes, and no other key |
| `ApiResponse.WireRoundTrip` | src/common/apiResponse.ts:8-39 | reading the JSON object back gives exactly the envelope that was built |
| `VerifyToken.Split` | src/middlewares/verifyToken.ts:21 | `split(' ')` yields at least one field, no field contains the separator, and joining the fields with the separator rebuilds the header |
| `VerifyToken.SplitJoin` | src/middlewares/verifyToken.ts:21 | splitting a join of separator-free fields gives back those fields (the inverse direction of `Split`) |
| `VerifyToken.Field` | src/middlewares/verifyToken.ts:21 | `split(' ')[i]` is defined exactly when there are more than i fields, and never contains a space |
| `VerifyToken.SplitHasSecondField` | src/middlewares/verifyToken.ts:21 | `split(' ')` yields a second field exactly when the header contains a space |
| `VerifyToken.BearerToken` | src/middlewares/verifyToken.ts:21 | `authorizationHeader.split(' ')[1]` is defined exactly when the header contains a space, and the token never contains one |
| `VerifyToken.BearerTokenOfTwoWords` | src/middlewares/verifyToken.ts:21 | for a header `<scheme> <token>`, the extracted token is `<token>`, whatever the scheme word |
| `VerifyToken.BearerTokenIgnoresTrailingFields` | src/middlewares/verifyToken.ts:21 | for `<scheme> <token> <rest>`, the token is still the second word; later fields are ignored |
| `VerifyToken.NoSpaceNoToken` | src/middlewares/verifyToken.ts:21-22 | a header without a space has no second field, so no token to verify |
| `VerifyToken.VerifyAuthToken` | src/middlewares/verifyToken.ts:17-31 | a missing or empty header rejects; acceptance happens exactly when the header has a second field and that token verifies, and then the attached claims are the verifier's decoded claims |
| `VerifyToken.GateOnTwoWordHeader` | src/middlewares/verifyToken.ts:19-26 | for `<scheme> <token>`, the signature check on the token alone decides; the claims are attached uninspected and the scheme word plays no part |
| `VerifyToken.GateRejectsOneWordHeader` | src/middlewares/verifyToken.ts:21-30 | a one-word header, such as a bare token or "Bearer" alone, is always rejected |
| `UserModel.HashPassword` | src/models/user.ts:33-36 | the stored form of a password: with a sound hasher it verifies against that password (plus pepper), and with a binding hasher against no other password |
| `UserModel.Create` | src/models/user.ts:27-48 | the insert fails exactly when the database is unreachable or the id is taken, and then the failure is thrown, not returned; otherwise the stored row keeps the caller's id, name and email, its password is the hash of password plus pepper, it is added under its id, and every other row is untouched |
| `UserModel.List` | src/models/user.ts:55-66 | when the database is reachable, the result holds every row exactly once, projected to id, name and email, in some order of the keys; otherwise it throws |
| `UserModel.Get` | src/models/user.ts:74-85 | the row with that id when there is one, absent (not an error) when there is none; throws only when unreachable |
| `UserModel.ChangePassword` | src/models/user.ts:93-109 | always reports true, even for an unknown id; only that row changes, and only its password, which becomes the hash of the new password plus pepper; no row is added or removed |
| `UserModel.Delete` | src/models/user.ts:116-128 | reports true exactly when a row with that id existed; afterwards that id is gone and every other row is untouched |
| `UserModel.OperationsKeepWellKeyed` | src/models/user.ts:27-128 | create, changePassword and delete keep every row filed under its own id |
| `UserModel.GetAfterCreate` | src/models/user.ts:27-85 | reading a freshly created id returns exactly the row `create` returned |
| `UserModel.ChangePasswordReplacesSecret` | src/models/user.ts:93-104 | with a sound and binding hasher, after a change the new password checks against the row and the previous one does not |
| `UserModel.DeleteTwice` | src/models/user.ts:116-123 | deleting an existing id reports true, and deleting it again reports false |
| `UserModel.CreateChangeDelete` | src/jest/models/user.test.ts:10-28 | the model test's create, changePassword and delete steps in sequence: create returns the caller's id, name and email; changePassword returns true; delete returns true. Beyond the test, a second delete returns false. The test's list step is covered by `UserModel.List` |
| `UserHandlers.ValidateCreateUser` | src/handlers/user.ts:159-165 | the five creation rules, each failing one reported against its own field; they report no error exactly when the name is 1..30 long, the email passes the email check, and the password is 8..20 long |
| `UserHandlers.CreateRulesReport` | src/handlers/user.ts:159-165 | each of the five rules (name empty, name length, email format, password empty, password length) reports its own message exactly when it fails |
| `UserHandlers.ValidateChangePassword` | src/handlers/user.ts:168-176 | the five password-change rules, each failing one reported against `currentPassword` or `newPassword`; they report no error exactly when both passwords are present and 8..20 long, and the new one differs from the current one |
| `UserHandlers.ChangeRulesReport` | src/handlers/user.ts:168-176 | each of the five rules (current password empty, current password length, new password empty, new password length, new password same as current) reports its own message against its own field exactly when it fails |
| `UserHandlers.SamePasswordReported` | src/handlers/user.ts:173-175 | reusing the current password as the new one is reported by the custom rule and makes the input invalid |
| `UserHandlers.Create` | src/handlers/user.ts:22-41 | status is always 200. Invalid input gives the validation-failed envelope carrying the rule errors, and the table is unchanged. Success happens exactly when the input is valid, the database is reachable and the fresh id is new; the stored user, hash included, is returned and added. Any store failure gives the system-error envelope with the table unchanged |
| `UserHandlers.ListUsers` | src/handlers/user.ts:49-59 | status 200; success exactly when the database is reachable, and then the data is every row once, projected without its password; otherwise the system-error envelope |
| `UserHandlers.Get` | src/handlers/user.ts:68-83 | status 200 and the table is unchanged. A found user gives success with that user; an absent one gives "User does not exist."; an unreachable store gives exactly the error envelope "System error, please try again later." |
| `UserHandlers.ChangePassword` | src/handlers/user.ts:98-132 | status 200. The checks run in order: invalid input gives validation-failed before any lookup; an unknown id gives "User does not exist."; a current password that does not check gives "The current password does not match.". Each of these leaves the table unchanged. Success happens exactly when every check passes, and then only that user's hash is replaced |
| `UserHandlers.DeleteUser` | src/handlers/user.ts:141-156 | status 200. Success with no data happens exactly when the row existed, and then it is removed; otherwise "User does not exist."; an unreachable store gives exactly the error envelope "System error, please try again later.". Every outcome but success leaves the table unchanged |
| `App.Serve` | src/handlers/user.ts:179-190 | the response is 401 exactly when the token gate rejects, and then the body is empty and the table unchanged, so no handler runs. Otherwise the response is 200 with a JSON envelope and equals the routed handler's result. Reads never change the table |
| `Scenarios.AddInvalidUser` | src/jest/api.test.ts:28-35 | an empty name, empty email and six-letter password give the validation-failed envelope, reporting "Name is empty" and the password length rule, and store nothing |
| `Scenarios.AddThenGet` | src/jest/api.test.ts:36-75 | a valid add succeeds with the submitted email and the fresh id; reading that id returns the same user, and reading an unknown id gives "User does not exist." |
| `Scenarios.AddYieldsAfterAdd` | src/jest/api.test.ts:36-45 | the valid add leaves exactly the table the password-change steps start from, with the user stored under the fresh id |
| `Scenarios.ChangePasswordRefusals` | src/jest/api.test.ts:81-112 | empty passwords and a reused password fail validation; an unknown id gives "User does not exist."; a wrong current password gives "The current password does not match."; the table is unchanged each time |
| `Scenarios.ChangePasswordThenAuthenticate` | src/jest/api.test.ts:113-120 | the correct current password yields success with no data. Beyond the test, afterwards the new password checks against the stored hash and the old one does not |
| `Scenarios.DeleteOnlyOnce` | src/jest/api.test.ts:126-137 | from any table holding the user, deleting an unknown id gives "User does not exist." and deleting the user succeeds. Beyond the test, a second delete gives "User does not exist." |

## Left out

- Connection pool (src/common/database.ts): acquiring, releasing and configuring connections is I/O plumbing. The code releases a connection only on success; that leak on error paths is not modelled.
- bcrypt internals are not modelled: salting, the `SALT_ROUNDS` cost factor, constant-time comparison, the 72-byte input limit, and `compareSync` throwing on a malformed stored hash. Stored passwords are always hashes made by `hashSync`, so the model has no malformed hash.
- JWT signing, expiry and signature checks are the abstract `jwtVerify`. That includes the library's own refusal of an empty token such as the one in `"Bearer "`.
- The email syntax check is the abstract `isEmail`. String length is `|s|`, counted in characters; express-validator's exact counting of surrogate pairs is not modelled.
- Body fields are absent or strings. JSON numbers, objects or nulls in the body, and express-validator's coercion of them, are not modelled. A validation error is reduced to its field and message, without the `type`, `value` and `location` keys of the library's error objects.
- Store failures are limited to an unreachable database and a duplicate id on insert. The table schema is not part of this model, so other constraint violations are not modelled. The id is treated as the primary key.
- Express routing, `express.json`, the home page, the server bootstrap, and the unauthenticated token issuance at `/getJWT` (src/index.ts) are framework glue around a library call.
- Logging to the console is not modelled.
- Concurrency: each request runs to completion against one table value. `changePassword`'s lookup followed by its update is not atomic in the source, and interleavings between requests are not modelled.
- App.Serve: for the list route, states only that the reply is a success exactly when the database is reachable; the rows it carries are the contract of `UserHandlers.ListUsers`.
- UserHandlers.Create: a missing email field is handed to the store as the empty string, where the source would pass `undefined`. This can only happen when the email check accepts the empty string, which the real check does not.

=== FILE: api_response.dfy ===
/**
 * The uniform response envelope every handler sends, and the HTTP response
 * that carries it. `ToWire` is the JSON object the client receives: a field
 * holding `undefined` is dropped by the serialiser, so it is absent there.
 */
module ApiResponse {
  import opened Wrappers

  /** `ResponseSuccess`, `ResponseFailed` and `ResponseError` as one datatype. */
  datatype Envelope<D, E> =
    | Success(data: Option<D>)
    | Failed(message: string, errors: Option<E>)
    | Error(message: string)

  /** The `status` field each constructor sets. */
  function Status<D, E>(e: Envelope<D, E>): (s: string)
    ensures s == "success" <==> e.Success?
    ensures s == "failed" <==> e.Failed?
    ensures s == "error" <==> e.Error?
  {
    match e
    case Success(_) => "success"
    case Failed(_, _) => "failed"
    case Error(_) => "error"
  }

  /** A value of the serialised object: a string, the success payload, or the error details. */
  datatype WireValue<D, E> = Text(text: string) | Data(data: D) | Details(errors: E)

  /** The JSON object `res.json` sends for an envelope. */
  function ToWire<D, E>(e: Envelope<D, E>): (w: map<string, WireValue<D, E>>)
    ensures "status" in w && w["status"] == Text(Status(e))
    ensures "data" in w <==> e.Success? && e.data.Some?
    ensures "data" in w ==> w["data"] == Data(e.data.value)
    ensures "message" in w <==> !e.Success?
    ensures "message" in w ==> w["message"] == Text(e.message)
    ensures "errors" in w <==> e.Failed? && e.errors.Some?
    ensures "errors" in w ==> w["errors"] == Details(e.errors.value)
    ensures w.Keys <= {"status", "data", "message", "errors"}
  {
    var status := map["status" := Text(Status(e))];
    match e
    case Success(None) => status
    case Success(Some(d)) => status["data" := Data(d)]
    case Failed(m, None) => status["message" := Text(m)]
    case Failed(m, Some(errs)) => status["message" := Text(m)]["errors" := Details(errs)]
    case Error(m) => status["message" := Text(m)]
  }

  /** Reads an envelope back from its JSON object; `None` when the object is not one. */
  function FromWire<D, E>(w: map<string, WireValue<D, E>>): Option<Envelope<D, E>> {
    if "status" !in w || !w["status"].Text? then None
    else if w["status"].text == "success" then
      if "data" in w && w["data"].Data? then Some(Success(Some(w["data"].data)))
      else Some(Success(None))
    else if "message" !in w || !w["message"].Text? then None
    else if w["status"].text == "failed" then
      if "errors" in w && w["errors"].Details? then Some(Failed(w["message"].text, Some(w["errors"].errors)))
      else Some(Failed(w["message"].text, None))
    else if w["status"].text == "error" then Some(Error(w["message"].text))
    else None
  }

  /** The client recovers exactly the envelope the server built. */
  lemma WireRoundTrip<D, E>(e: Envelope<D, E>)
    ensures FromWire(ToWire(e)) == Some(e)
  {
  }

  /** A response body: nothing at all, or a JSON envelope. */
  datatype Body<D, E> = Empty | Json(envelope: Envelope<D, E>)

  datatype HttpResponse<D, E> = HttpResponse(status: int, body: Body<D, E>)

  const OK: int := 200
  const UNAUTHORIZED: int := 401

  /** `res.status(200).json(envelope)`: every business outcome, failures included. */
  function Reply<D, E>(e: Envelope<D, E>): (r: HttpResponse<D, E>)
    ensures r.status == OK && r.body.Json? && r.body.envelope == e
  {
    HttpResponse(OK, Json(e))
  }

  /** `res.status(401).end()`: the status alone, with no body. */
  function Unauthorized<D, E>(): (r: HttpResponse<D, E>)
    ensures r.status == UNAUTHORIZED && r.body.Empty?
  {
    HttpResponse(UNAUTHORIZED, Empty)
  }
}

=== FILE: app.dfy ===
/**
 * The user routes: each one is guarded by the token gate, and `add` and
 * `change-password` run their validation chain inside the handler. A
 * rejected token answers 401 with no body and never reaches the handler.
 */
module App {
  import opened Wrappers
  import opened Crypto
  import opened ApiResponse
  import opened UserModel
  import opened UserHandlers
  import opened VerifyToken

  /** The five routes `userRoutes` declares, with their path parameter and body. */
  datatype Route =
    | ListRoute                                   // GET /users
    | GetRoute(id: string)                        // GET /user/:id
    | AddRoute(createBody: CreateBody)            // POST /user/add
    | ChangePasswordRoute(id: string, changeBody: ChangeBody)  // PUT /user/change-password/:id
    | DeleteRoute(id: string)                     // DELETE /user/delete/:id

  /** A request: its `Authorization` header, if any, and the route it matched. */
  datatype Request = Request(authorization: Option<string>, route: Route)

  /** The external services a request depends on: configuration, the email syntax check, and JWT verification. */
  datatype Services<C> = Services(env: Env, isEmail: string -> bool, jwtVerify: string -> Option<C>)

  /**
   * Serves one request against the table. `freshId` is the uuid `create`
   * would draw and `salt` the salt bcrypt would draw.
   */
  method Serve<C>(db: Db, req: Request, services: Services<C>, freshId: string, salt: Salt)
    returns (db': Db, resp: Response)
    ensures resp.status == UNAUTHORIZED <==> VerifyAuthToken(req.authorization, services.jwtVerify).Rejected?
    ensures resp.status == UNAUTHORIZED ==> resp.body == Empty && db' == db
    ensures resp.status != UNAUTHORIZED ==> resp.status == OK && resp.body.Json?
    ensures req.route.ListRoute? || req.route.GetRoute? ==> db' == db
    ensures VerifyAuthToken(req.authorization, services.jwtVerify).Accepted? ==>
      match req.route
      case ListRoute => resp.body.envelope.Success? <==> db.reachable
      case GetRoute(id) => (db', resp) == UserHandlers.Get(db, id)
      case AddRoute(body) => (db', resp) == UserHandlers.Create(db, body, freshId, salt, services.env, services.isEmail)
      case ChangePasswordRoute(id, body) => (db', resp) == UserHandlers.ChangePassword(db, id, body, salt, services.env)
      case DeleteRoute(id) => (db', resp) == UserHandlers.DeleteUser(db, id)
  {
    match VerifyAuthToken(req.authorization, services.jwtVerify)
    case Rejected =>
      return db, Unauthorized();
    case Accepted(_) =>
      match req.route
      case ListRoute =>
        ghost var order;
        resp, order := UserHandlers.ListUsers(db);
        db' := db;
      case GetRoute(id) =>
        var r := UserHandlers.Get(db, id);
        db', resp := r.0, r.1;
      case AddRoute(body) =>
        var r := UserHandlers.Create(db, body, freshId, salt, services.env, services.isEmail);
        db', resp := r.0, r.1;
      case ChangePasswordRoute(id, body) =>
        var r := UserHandlers.ChangePassword(db, id, body, salt, services.env);
        db', resp := r.0, r.1;
      case DeleteRoute(id) =>
        var r := UserHandlers.DeleteUser(db, id);
        db', resp := r.0, r.1;
  }
}

=== FILE: crypto.dfy ===
/**
 * The password hasher. bcrypt is not modelled: its two entry points are
 * function values, and what the rest of the model needs from them is stated
 * as the predicates `Sound` and `Binding`, which lemmas take as hypotheses.
 */
module Crypto {

  /** The random salt bcrypt draws for each hash; the caller supplies it. */
  type Salt = nat

  /**
   * `hashSync(input, salt)` is the self-describing hash string stored in the
   * table; `compareSync(input, hash)` re-hashes `input` with the salt the
   * hash embeds and compares.
   */
  datatype Bcrypt = Bcrypt(hashSync: (string, Salt) -> string, compareSync: (string, string) -> bool)

  /** Every hash matches the input it was made from, whatever the salt. */
  ghost predicate Sound(b: Bcrypt) {
    forall input, salt :: b.compareSync(input, b.hashSync(input, salt))
  }

  /** A hash matches no input other than the one it was made from (idealised collision resistance). */
  ghost predicate Binding(b: Bcrypt) {
    forall input, other, salt :: b.compareSync(other, b.hashSync(input, salt)) ==> other == input
  }

  /** The string actually hashed: the plaintext followed by the server-wide pepper. */
  function Peppered(plain: string, pepper: string): (r: string)
    ensures |r| == |plain| + |pepper|
    ensures r[..|plain|] == plain && r[|plain|..] == pepper
  {
    plain + pepper
  }

  /** Appending the same pepper never makes two different passwords hash alike. */
  lemma PepperedInjective(a: string, b: string, pepper: string)
    requires Peppered(a, pepper) == Peppered(b, pepper)
    ensures a == b
  {
    assert a == Peppered(a, pepper)[..|a|];
  }

  /** A password checks against a hash made from that same password. */
  lemma HashMatchesOwnPassword(b: Bcrypt, plain: string, pepper: string, salt: Salt)
    requires Sound(b)
    ensures b.compareSync(Peppered(plain, pepper), b.hashSync(Peppered(plain, pepper), salt))
  {
  }

  /** A password checks against a hash made from another password only if the two are equal. */
  lemma HashRejectsOtherPassword(b: Bcrypt, plain: string, other: string, pepper: string, salt: Salt)
    requires Binding(b)
    requires other != plain
    ensures !b.compareSync(Peppered(other, pepper), b.hashSync(Peppered(plain, pepper), salt))
  {
    if b.compareSync(Peppered(other, pepper), b.hashSync(Peppered(plain, pepper), salt)) {
      PepperedInjective(other, plain, pepper);
    }
  }
}

=== FILE: scenarios.dfy ===
/**
 * The steps the API test drives, stated for any table, any valid user and
 * any hasher that is sound and binding: add a user, read it, try the password
 * change with each kind of bad input, change it, delete an unknown id and
 * then the user. Each lemma starts from the table the previous step leaves:
 * `AddYieldsAfterAdd` ties the add step to the table the password-change
 * lemmas start from. Beyond the test, `DeleteOnlyOnce` also states that a
 * second delete of the same user fails.
 */
module Scenarios {
  import opened Wrappers
  import opened Crypto
  import opened ApiResponse
  import opened UserModel
  import opened UserHandlers

  /** A body the creation rules accept, with a password short enough to take a three-letter suffix. */
  predicate TestUser(name: string, email: string, password: string, isEmail: string -> bool) {
    1 <= |name| <= 30 && isEmail(email) && 8 <= |password| <= 17
  }

  /** Invalid input (empty name, empty email, a six-letter password) is refused and nothing is stored. */
  lemma AddInvalidUser(db: Db, freshId: string, salt: Salt, env: Env, isEmail: string -> bool)
    ensures var b := CreateBody(Some(""), Some(""), Some("Chuong"));
      && var (db', resp) := UserHandlers.Create(db, b, freshId, salt, env, isEmail);
      && db' == db && resp.status == OK
      && resp.body == Json(Failed(VALIDATION_FAILED, Some(ValidateCreateUser(b, isEmail))))
      && FieldError("name", "Name is empty") in ValidateCreateUser(b, isEmail)
      && FieldError("password", "The length of password is between 8 ~ 20") in ValidateCreateUser(b, isEmail)
  {
    CreateRulesReport(CreateBody(Some(""), Some(""), Some("Chuong")), isEmail);
  }

  /** A valid add stores the user under the fresh id; reading that id back returns it, reading another id fails. */
  lemma AddThenGet(db: Db, name: string, email: string, password: string, freshId: string, unknownId: string,
                   salt: Salt, env: Env, isEmail: string -> bool)
    requires db.reachable && freshId !in db.users && unknownId !in db.users && unknownId != freshId
    requires TestUser(name, email, password, isEmail)
    ensures var (db1, resp) := UserHandlers.Create(db, CreateBody(Some(name), Some(email), Some(password)), freshId, salt, env, isEmail);
      && resp.body.Json? && resp.body.envelope.Success?
      && resp.body.envelope.data.Some? && resp.body.envelope.data.value.OneUser?
      && resp.body.envelope.data.value.user.email == email
      && resp.body.envelope.data.value.user.id == freshId
      && UserHandlers.Get(db1, freshId).1.body == Json(Success(Some(OneUser(resp.body.envelope.data.value.user))))
      && UserHandlers.Get(db1, unknownId).1.body == Json(Failed(USER_NOT_FOUND, None))
  {
  }

  /** The table right after adding the test user. */
  function AfterAdd(db: Db, name: string, email: string, password: string, freshId: string, salt: Salt, env: Env): Db {
    db.(users := db.users[freshId := User(freshId, name, email, HashPassword(password, salt, env))])
  }

  /** A valid add leaves exactly the table the password-change steps start from. */
  lemma AddYieldsAfterAdd(db: Db, name: string, email: string, password: string, freshId: string,
                          salt: Salt, env: Env, isEmail: string -> bool)
    requires db.reachable && freshId !in db.users
    requires TestUser(name, email, password, isEmail)
    ensures UserHandlers.Create(db, CreateBody(Some(name), Some(email), Some(password)), freshId, salt, env, isEmail).0
      == AfterAdd(db, name, email, password, freshId, salt, env)
    ensures freshId in AfterAdd(db, name, email, password, freshId, salt, env).users
  {
  }

  /**
   * Each bad password change is refused with its own message and leaves the
   * table as it was: empty fields, the same password twice, an unknown id,
   * a wrong current password.
   */
  lemma ChangePasswordRefusals(db: Db, name: string, email: string, password: string, freshId: string, unknownId: string,
                               salt: Salt, salt2: Salt, env: Env, isEmail: string -> bool)
    requires Binding(env.bcrypt)
    requires db.reachable && freshId !in db.users && unknownId !in db.users && unknownId != freshId
    requires TestUser(name, email, password, isEmail)
    ensures var db1 := AfterAdd(db, name, email, password, freshId, salt, env);
      && UserHandlers.ChangePassword(db1, freshId, ChangeBody(Some(""), Some("")), salt2, env)
           == (db1, Reply(Failed(VALIDATION_FAILED, Some(ValidateChangePassword(ChangeBody(Some(""), Some("")))))))
      && UserHandlers.ChangePassword(db1, freshId, ChangeBody(Some(password), Some(password)), salt2, env)
           == (db1, Reply(Failed(VALIDATION_FAILED, Some(ValidateChangePassword(ChangeBody(Some(password), Some(password)))))))
      && UserHandlers.ChangePassword(db1, unknownId, ChangeBody(Some(password), Some(password + "New")), salt2, env)
           == (db1, Reply(Failed(USER_NOT_FOUND, None)))
      && UserHandlers.ChangePassword(db1, freshId, ChangeBody(Some(password + "Old"), Some(password + "New")), salt2, env)
           == (db1, Reply(Failed(PASSWORD_MISMATCH, None)))
  {
    var db1 := AfterAdd(db, name, email, password, freshId, salt, env);
    SamePasswordReported(ChangeBody(Some(password), Some(password)));
    assert password + "New" != password by {
      assert |password + "New"| != |password|;
    }
    assert password + "Old" != password by {
      assert |password + "Old"| != |password|;
    }
    assert (password + "New")[|password|..] != (password + "Old")[|password|..];
    HashRejectsOtherPassword(env.bcrypt, password, password + "Old", env.pepper, salt);
  }

  /** The correct current password changes it: afterwards the new password matches and the old one does not. */
  lemma ChangePasswordThenAuthenticate(db: Db, name: string, email: string, password: string, freshId: string,
                                       salt: Salt, salt2: Salt, env: Env, isEmail: string -> bool)
    requires Sound(env.bcrypt) && Binding(env.bcrypt)
    requires db.reachable && freshId !in db.users
    requires TestUser(name, email, password, isEmail)
    ensures var db1 := AfterAdd(db, name, email, password, freshId, salt, env);
      && var (db2, resp) := UserHandlers.ChangePassword(db1, freshId, ChangeBody(Some(password), Some(password + "New")), salt2, env);
      && resp == Reply(Success(None))
      && freshId in db2.users
      && PasswordMatches(password + "New", db2.users[freshId].password, env)
      && !PasswordMatches(password, db2.users[freshId].password, env)
  {
    var db1 := AfterAdd(db, name, email, password, freshId, salt, env);
    HashMatchesOwnPassword(env.bcrypt, password, env.pepper, salt);
    assert |password + "New"| == |password| + 3;
    ChangePasswordReplacesSecret(db1, freshId, password, password + "New", salt2, env);
  }

  /**
   * Deleting an unknown id fails and deleting the user succeeds, from any table
   * holding the user (in particular the one the password change leaves). The
   * second delete, which fails, goes beyond the test.
   */
  lemma DeleteOnlyOnce(db: Db, freshId: string, unknownId: string)
    requires db.reachable && freshId in db.users && unknownId !in db.users
    ensures DeleteUser(db, unknownId).1.body == Json(Failed(USER_NOT_FOUND, None))
    ensures var (db1, resp) := DeleteUser(db, freshId);
      && resp == Reply(Success(None))
      && DeleteUser(db1, freshId).1.body == Json(Failed(USER_NOT_FOUND, None))
  {
  }
}

=== FILE: user_handlers.dfy ===
/**
 * The request handlers for the user routes and the validation rules that run
 * before two of them. Each handler maps (table, request) to (table, response);
 * every response it produces has HTTP status 200, and a thrown store error
 * becomes the generic "error" envelope with the table left as it was.
 */
module UserHandlers {
  import opened Wrappers
  import opened Crypto
  import opened ApiResponse
  import opened UserModel

  const VALIDATION_FAILED := "Validation failed. Please check your input."
  const USER_NOT_FOUND := "User does not exist."
  const PASSWORD_MISMATCH := "The current password does not match."
  const SYSTEM_ERROR := "System error, please try again later."

  /** One entry of `validationResult(req).array()`: the field and the rule's message. */
  datatype FieldError = FieldError(param: string, msg: string)

  /** What a success envelope can carry. */
  datatype Payload = OneUser(user: User) | UserList(users: seq<UserSummary>)

  type Response = HttpResponse<Payload, seq<FieldError>>

  /** The JSON body of `POST /user/add`; an absent field is `None`. */
  datatype CreateBody = CreateBody(name: Option<string>, email: Option<string>, password: Option<string>)

  /** The JSON body of `PUT /user/change-password/:id`. */
  datatype ChangeBody = ChangeBody(currentPassword: Option<string>, newPassword: Option<string>)

  // ---------------------------------------------------------------------------
  // Validation rules

  /** The string the standard validators see: an absent field reads as "". */
  function FieldText(field: Option<string>): string {
    match field
    case None => ""
    case Some(s) => s
  }

  /** One rule of a validation chain: no error when it holds, its message when it does not. */
  function Rule(holds: bool, param: string, msg: string): (errors: seq<FieldError>)
    ensures errors == [] <==> holds
  {
    if holds then [] else [FieldError(param, msg)]
  }

  /** `validateCreateUser`: the five rules in declaration order, every failing one reported. */
  function ValidateCreateUser(b: CreateBody, isEmail: string -> bool): (errors: seq<FieldError>)
    ensures errors == [] <==> CreateInputValid(b, isEmail)
    ensures forall e :: e in errors ==> e.param in {"name", "email", "password"}
  {
    Rule(|FieldText(b.name)| > 0, "name", "Name is empty")
    + Rule(1 <= |FieldText(b.name)| <= 30, "name", "The length of name is between 1 ~ 30")
    + Rule(isEmail(FieldText(b.email)), "email", "Invalid email format")
    + Rule(|FieldText(b.password)| > 0, "password", "Password is empty")
    + Rule(8 <= |FieldText(b.password)| <= 20, "password", "The length of password is between 8 ~ 20")
  }

  /** The input `create` accepts, stated field by field. */
  predicate CreateInputValid(b: CreateBody, isEmail: string -> bool) {
    && b.name.Some? && 1 <= |b.name.value| <= 30
    && isEmail(FieldText(b.email))
    && b.password.Some? && 8 <= |b.password.value| <= 20
  }

  /** Each rule of `validateCreateUser` reports its message exactly when it fails. */
  lemma CreateRulesReport(b: CreateBody, isEmail: string -> bool)
    ensures |FieldText(b.name)| == 0 <==> FieldError("name", "Name is empty") in ValidateCreateUser(b, isEmail)
    ensures !(1 <= |FieldText(b.name)| <= 30) <==>
      FieldError("name", "The length of name is between 1 ~ 30") in ValidateCreateUser(b, isEmail)
    ensures !isEmail(FieldText(b.email)) <==> FieldError("email", "Invalid email format") in ValidateCreateUser(b, isEmail)
    ensures |FieldText(b.password)| == 0 <==> FieldError("password", "Password is empty") in ValidateCreateUser(b, isEmail)
    ensures !(8 <= |FieldText(b.password)| <= 20) <==>
      FieldError("password", "The length of password is between 8 ~ 20") in ValidateCreateUser(b, isEmail)
  {
    var name, email, password := FieldText(b.name), FieldText(b.email), FieldText(b.password);
    var nameEmpty := Rule(|name| > 0, "name", "Name is empty");
    var nameLength := Rule(1 <= |name| <= 30, "name", "The length of name is between 1 ~ 30");
    var emailFormat := Rule(isEmail(email), "email", "Invalid email format");
    var passwordEmpty := Rule(|password| > 0, "password", "Password is empty");
    var passwordLength := Rule(8 <= |password| <= 20, "password", "The length of password is between 8 ~ 20");
    assert ValidateCreateUser(b, isEmail) == nameEmpty + nameLength + emailFormat + passwordEmpty + passwordLength;
    forall e | e in ValidateCreateUser(b, isEmail)
      ensures e in nameEmpty || e in nameLength || e in emailFormat || e in passwordEmpty || e in passwordLength
    {
    }
  }

  /** `validateChangePassword`: both passwords 8..20 long, and the new one different from the current one. */
  function ValidateChangePassword(b: ChangeBody): (errors: seq<FieldError>)
    ensures errors == [] <==> ChangeInputValid(b)
    ensures forall e :: e in errors ==> e.param in {"currentPassword", "newPassword"}
  {
    Rule(|FieldText(b.currentPassword)| > 0, "currentPassword", "Current password is empty")
    + Rule(8 <= |FieldText(b.currentPassword)| <= 20, "currentPassword", "The length of current password is between 8 ~ 20")
    + Rule(|FieldText(b.newPassword)| > 0, "newPassword", "New password is empty")
    + Rule(8 <= |FieldText(b.newPassword)| <= 20, "newPassword", "The length of new password is between 8 ~ 20")
    + Rule(b.newPassword != b.currentPassword, "newPassword", "The new password is the same as the current password")
  }

  /** The input `changePassword` accepts, stated field by field. */
  predicate ChangeInputValid(b: ChangeBody) {
    && b.currentPassword.Some? && 8 <= |b.currentPassword.value| <= 20
    && b.newPassword.Some? && 8 <= |b.newPassword.value| <= 20
    && b.newPassword.value != b.currentPassword.value
  }

  /** Each rule of `validateChangePassword` reports its message exactly when it fails. */
  lemma ChangeRulesReport(b: ChangeBody)
    ensures |FieldText(b.currentPassword)| == 0 <==>
      FieldError("currentPassword", "Current password is empty") in ValidateChangePassword(b)
    ensures !(8 <= |FieldText(b.currentPassword)| <= 20) <==>
      FieldError("currentPassword", "The length of current password is between 8 ~ 20") in ValidateChangePassword(b)
    ensures |FieldText(b.newPassword)| == 0 <==>
      FieldError("newPassword", "New password is empty") in ValidateChangePassword(b)
    ensures !(8 <= |FieldText(b.newPassword)| <= 20) <==>
      FieldError("newPassword", "The length of new password is between 8 ~ 20") in ValidateChangePassword(b)
    ensures b.newPassword == b.currentPassword <==>
      FieldError("newPassword", "The new password is the same as the current password") in ValidateChangePassword(b)
  {
    var current, next := FieldText(b.currentPassword), FieldText(b.newPassword);
    var currentEmpty := Rule(|current| > 0, "currentPassword", "Current password is empty");
    var currentLength := Rule(8 <= |current| <= 20, "currentPassword", "The length of current password is between 8 ~ 20");
    var nextEmpty := Rule(|next| > 0, "newPassword", "New password is empty");
    var nextLength := Rule(8 <= |next| <= 20, "newPassword", "The length of new password is between 8 ~ 20");
    var reused := Rule(b.newPassword != b.currentPassword, "newPassword", "The new password is the same as the current password");
    assert ValidateChangePassword(b) == currentEmpty + currentLength + nextEmpty + nextLength + reused;
    forall e | e in ValidateChangePassword(b)
      ensures e in currentEmpty || e in currentLength || e in nextEmpty || e in nextLength || e in reused
    {
    }
  }

  /** Reusing the current password is reported by the custom rule. */
  lemma SamePasswordReported(b: ChangeBody)
    requires b.newPassword == b.currentPassword
    ensures FieldError("newPassword", "The new password is the same as the current password") in ValidateChangePassword(b)
    ensures !ChangeInputValid(b)
  {
  }

  // ---------------------------------------------------------------------------
  // Handlers

  /** The reply for any store error; the table is unchanged. */
  function SystemError(db: Db): (r: (Db, Response))
    ensures r.0 == db && r.1.status == OK && r.1.body == Json(Error(SYSTEM_ERROR))
  {
    (db, Reply(Error(SYSTEM_ERROR)))
  }

  /**
   * `create`: validate, then insert a row with the fresh id `freshId` (the
   * uuid) and the password hashed under `salt`, and return the stored row.
   */
  function Create(db: Db, b: CreateBody, freshId: string, salt: Salt, env: Env, isEmail: string -> bool): (r: (Db, Response))
    ensures r.1.status == OK && r.1.body.Json?
    ensures !CreateInputValid(b, isEmail) ==>
      r == (db, Reply(Failed(VALIDATION_FAILED, Some(ValidateCreateUser(b, isEmail)))))
    ensures r.1.body.envelope.Success? <==> CreateInputValid(b, isEmail) && db.reachable && freshId !in db.users
    ensures r.1.body.envelope.Success? ==>
      var stored := User(freshId, b.name.value, FieldText(b.email), HashPassword(b.password.value, salt, env));
      && r.1.body.envelope.data == Some(OneUser(stored))
      && r.0 == db.(users := db.users[freshId := stored])
    ensures r.1.body.envelope.Error? <==> CreateInputValid(b, isEmail) && !(db.reachable && freshId !in db.users)
    ensures r.1.body.envelope.Error? ==> r.0 == db && r.1.body.envelope.message == SYSTEM_ERROR
  {
    var errors := ValidateCreateUser(b, isEmail);
    if errors != [] then (db, Reply(Failed(VALIDATION_FAILED, Some(errors))))
    else
      match UserModel.Create(db, User(freshId, b.name.value, FieldText(b.email), b.password.value), salt, env)
      case Err(_) => SystemError(db)
      case Ok((db', stored)) => (db', Reply(Success(Some(OneUser(stored)))))
  }

  /** `list`: every row, projected, in the database's order. */
  method ListUsers(db: Db) returns (reply: Response, ghost order: seq<string>)
    ensures reply.status == OK && reply.body.Json?
    ensures reply.body.envelope.Success? <==> db.reachable
    ensures reply.body.envelope.Success? ==>
      && reply.body.envelope.data.Some? && reply.body.envelope.data.value.UserList?
      && var users := reply.body.envelope.data.value.users;
      && Enumerates(order, db.users.Keys)
      && |users| == |order|
      && forall i :: 0 <= i < |order| ==> users[i] == Project(db.users[order[i]])
    ensures !reply.body.envelope.Success? ==> reply.body.envelope == Error(SYSTEM_ERROR)
  {
    var rows;
    rows, order := UserModel.List(db);
    match rows
    case Err(_) =>
      reply := Reply(Error(SYSTEM_ERROR));
    case Ok(users) =>
      reply := Reply(Success(Some(UserList(users))));
  }

  /** `get`: the row with that id, or the "does not exist" failure. */
  function Get(db: Db, id: string): (r: (Db, Response))
    ensures r.0 == db
    ensures r.1.status == OK && r.1.body.Json?
    ensures r.1.body.envelope.Success? <==> db.reachable && id in db.users
    ensures r.1.body.envelope.Success? ==> r.1.body.envelope.data == Some(OneUser(db.users[id]))
    ensures r.1.body.envelope.Failed? <==> db.reachable && id !in db.users
    ensures r.1.body.envelope.Failed? ==> r.1.body.envelope == Failed(USER_NOT_FOUND, None)
    ensures r.1.body.envelope.Error? <==> !db.reachable
    ensures !db.reachable ==> r == (db, Reply(Error(SYSTEM_ERROR)))
  {
    match UserModel.Get(db, id)
    case Err(_) => SystemError(db)
    case Ok(None) => (db, Reply(Failed(USER_NOT_FOUND, None)))
    case Ok(Some(user)) => (db, Reply(Success(Some(OneUser(user)))))
  }

  /**
   * `changePassword`: validate; look the user up; check the current password
   * against the stored hash; only then store the new password hashed under `salt`.
   */
  function ChangePassword(db: Db, id: string, b: ChangeBody, salt: Salt, env: Env): (r: (Db, Response))
    ensures r.1.status == OK && r.1.body.Json?
    ensures !ChangeInputValid(b) ==>
      r == (db, Reply(Failed(VALIDATION_FAILED, Some(ValidateChangePassword(b)))))
    ensures ChangeInputValid(b) && !db.reachable ==> r == (db, Reply(Error(SYSTEM_ERROR)))
    ensures ChangeInputValid(b) && db.reachable && id !in db.users ==>
      r == (db, Reply(Failed(USER_NOT_FOUND, None)))
    ensures (ChangeInputValid(b) && db.reachable && id in db.users &&
             !PasswordMatches(b.currentPassword.value, db.users[id].password, env)) ==>
      r == (db, Reply(Failed(PASSWORD_MISMATCH, None)))
    ensures r.1.body.envelope.Success? <==>
      ChangeInputValid(b) && db.reachable && id in db.users &&
      PasswordMatches(b.currentPassword.value, db.users[id].password, env)
    ensures r.1.body.envelope.Success? ==>
      && r.1.body.envelope.data == None
      && r.0 == db.(users := db.users[id := db.users[id].(password := HashPassword(b.newPassword.value, salt, env))])
    ensures !r.1.body.envelope.Success? ==> r.0 == db
  {
    var errors := ValidateChangePassword(b);
    if errors != [] then (db, Reply(Failed(VALIDATION_FAILED, Some(errors))))
    else
      match UserModel.Get(db, id)
      case Err(_) => SystemError(db)
      case Ok(None) => (db, Reply(Failed(USER_NOT_FOUND, None)))
      case Ok(Some(user)) =>
        if !PasswordMatches(b.currentPassword.value, user.password, env) then
          (db, Reply(Failed(PASSWORD_MISMATCH, None)))
        else
          match UserModel.ChangePassword(db, id, b.newPassword.value, salt, env)
          case Err(_) => SystemError(db)
          case Ok((db', _)) => (db', Reply(Success(None)))
  }

  /** `deleteUser`: success when the row was removed, the "does not exist" failure otherwise. */
  function DeleteUser(db: Db, id: string): (r: (Db, Response))
    ensures r.1.status == OK && r.1.body.Json?
    ensures r.1.body.envelope.Success? <==> db.reachable && id in db.users
    ensures r.1.body.envelope.Success? ==> r.1.body.envelope.data == None && r.0 == db.(users := db.users - {id})
    ensures r.1.body.envelope.Failed? <==> db.reachable && id !in db.users
    ensures r.1.body.envelope.Failed? ==> r.1.body.envelope == Failed(USER_NOT_FOUND, None)
    ensures r.1.body.envelope.Error? <==> !db.reachable
    ensures !db.reachable ==> r == (db, Reply(Error(SYSTEM_ERROR)))
    ensures !r.1.body.envelope.Success? ==> r.0 == db
  {
    match UserModel.Delete(db, id)
    case Err(_) => SystemError(db)
    case Ok((db', deleted)) =>
      if deleted then (db', Reply(Success(None)))
      else (db', Reply(Failed(USER_NOT_FOUND, None)))
  }
}

=== FILE: user_model.dfy ===
/**
 * `UserStore`: the `users` table as a map from id to row. Each SQL statement
 * is a map operation; any failure of the store (the database unreachable, a
 * duplicate primary key) is an `Err` handed back to the caller unchanged.
 */
module UserModel {
  import opened Wrappers
  import opened Crypto

  /** A row of `users`; `password` holds the bcrypt hash, never the plaintext. */
  datatype User = User(id: string, name: string, email: string, password: string)

  /** The columns `list` selects: everything but the password. */
  datatype UserSummary = UserSummary(id: string, name: string, email: string)

  /** The table, and whether the database can currently be reached. */
  datatype Db = Db(users: map<string, User>, reachable: bool)

  /** What a store operation can throw. */
  datatype StoreError = Unreachable | DuplicateKey(id: string)

  /** Configuration the store reads: the `BCRYPT_PASSWORD` pepper and the hasher. */
  datatype Env = Env(pepper: string, bcrypt: Bcrypt)

  /** Every row is filed under its own id. */
  ghost predicate WellKeyed(users: map<string, User>) {
    forall k :: k in users ==> users[k].id == k
  }

  /**
   * The stored form of a plaintext password. With a sound hasher it verifies
   * against that password; with a binding one, against no other.
   */
  function HashPassword(plain: string, salt: Salt, env: Env): (hash: string)
    ensures Sound(env.bcrypt) ==> PasswordMatches(plain, hash, env)
    ensures Binding(env.bcrypt) ==> forall other :: PasswordMatches(other, hash, env) ==> other == plain
  {
    env.bcrypt.hashSync(Peppered(plain, env.pepper), salt)
  }

  /** Whether a plaintext password checks against a stored hash. */
  predicate PasswordMatches(plain: string, hash: string, env: Env) {
    env.bcrypt.compareSync(Peppered(plain, env.pepper), hash)
  }

  function Project(u: User): (s: UserSummary)
    ensures s.id == u.id && s.name == u.name && s.email == u.email
  {
    UserSummary(u.id, u.name, u.email)
  }

  /**
   * `INSERT ... RETURNING *` of `u` with its password hashed under `salt`.
   * Returns the table after the insert and the stored row.
   */
  function Create(db: Db, u: User, salt: Salt, env: Env): (r: Result<(Db, User), StoreError>)
    ensures r.Ok? <==> db.reachable && u.id !in db.users
    ensures !db.reachable ==> r == Err(Unreachable)
    ensures db.reachable && u.id in db.users ==> r == Err(DuplicateKey(u.id))
    ensures r.Ok? ==>
      var (db', stored) := r.value;
      && stored.id == u.id && stored.name == u.name && stored.email == u.email
      && stored.password == HashPassword(u.password, salt, env)
      && db'.reachable
      && db'.users.Keys == db.users.Keys + {u.id}
      && db'.users[u.id] == stored
      && forall k :: k in db.users ==> db'.users[k] == db.users[k]
  {
    if !db.reachable then Err(Unreachable)
    else if u.id in db.users then Err(DuplicateKey(u.id))
    else
      var stored := User(u.id, u.name, u.email, HashPassword(u.password, salt, env));
      Ok((db.(users := db.users[u.id := stored]), stored))
  }

  /** A distinct enumeration of a set of keys. */
  ghost predicate Enumerates(order: seq<string>, keys: set<string>) {
    && (forall i, j :: 0 <= i < j < |order| ==> order[i] != order[j])
    && (forall k :: k in keys <==> k in order)
  }

  /**
   * `select id, name, email from users`. The database picks the row order,
   * so the method chooses one; `order` is that choice.
   */
  method List(db: Db) returns (r: Result<seq<UserSummary>, StoreError>, ghost order: seq<string>)
    ensures r.Err? <==> !db.reachable
    ensures r.Err? ==> r.error == Unreachable
    ensures r.Ok? ==>
      && Enumerates(order, db.users.Keys)
      && |r.value| == |order|
      && forall i :: 0 <= i < |order| ==> r.value[i] == Project(db.users[order[i]])
  {
    if !db.reachable {
      return Err(Unreachable), [];
    }
    var rows: seq<UserSummary> := [];
    var rest := db.users.Keys;
    order := [];
    while rest != {}
      invariant rest <= db.users.Keys
      invariant |rows| == |order|
      invariant forall i :: 0 <= i < |order| ==> order[i] in db.users && order[i] !in rest
      invariant forall i :: 0 <= i < |order| ==> rows[i] == Project(db.users[order[i]])
      invariant forall i, j :: 0 <= i < j < |order| ==> order[i] != order[j]
      invariant forall k :: k in db.users ==> k in rest || k in order
      decreases rest
    {
      var k :| k in rest;
      rows := rows + [Project(db.users[k])];
      order := order + [k];
      rest := rest - {k};
    }
    return Ok(rows), order;
  }

  /** `select * from users where id = $1`: the row, or `undefined` when there is none. */
  function Get(db: Db, id: string): (r: Result<Option<User>, StoreError>)
    ensures r.Err? <==> !db.reachable
    ensures r.Ok? ==> (r.value.Some? <==> id in db.users)
    ensures r.Ok? && r.value.Some? ==> r.value.value == db.users[id]
  {
    if !db.reachable then Err(Unreachable)
    else if id in db.users then Ok(Some(db.users[id]))
    else Ok(None)
  }

  /**
   * `update users set password = $2 where id = $1` with the new password hashed
   * under `salt`. Reports true whether or not a row had that id.
   */
  function ChangePassword(db: Db, id: string, password: string, salt: Salt, env: Env): (r: Result<(Db, bool), StoreError>)
    ensures r.Err? <==> !db.reachable
    ensures r.Ok? ==>
      var (db', updated) := r.value;
      && updated
      && db'.reachable
      && db'.users.Keys == db.users.Keys
      && (id in db.users ==> db'.users[id] == db.users[id].(password := HashPassword(password, salt, env)))
      && forall k :: k in db.users && k != id ==> db'.users[k] == db.users[k]
  {
    if !db.reachable then Err(Unreachable)
    else
      var hash := HashPassword(password, salt, env);
      var users := if id in db.users then db.users[id := db.users[id].(password := hash)] else db.users;
      Ok((db.(users := users), true))
  }

  /** How many rows `delete from users where id = $1` removes; the id is the key, so at most one. */
  function RowCount(users: map<string, User>, id: string): nat {
    if id in users then 1 else 0
  }

  /** `delete from users where id = $1`, reporting whether exactly one row went. */
  function Delete(db: Db, id: string): (r: Result<(Db, bool), StoreError>)
    ensures r.Err? <==> !db.reachable
    ensures r.Ok? ==>
      var (db', deleted) := r.value;
      && (deleted <==> id in db.users)
      && db'.reachable
      && db'.users.Keys == db.users.Keys - {id}
      && forall k :: k in db'.users ==> db'.users[k] == db.users[k]
  {
    if !db.reachable then Err(Unreachable)
    else Ok((db.(users := db.users - {id}), RowCount(db.users, id) == 1))
  }

  /** Every successful store operation keeps each row filed under its own id. */
  lemma OperationsKeepWellKeyed(db: Db, u: User, id: string, password: string, salt: Salt, env: Env)
    requires WellKeyed(db.users)
    ensures Create(db, u, salt, env).Ok? ==> WellKeyed(Create(db, u, salt, env).value.0.users)
    ensures ChangePassword(db, id, password, salt, env).Ok? ==> WellKeyed(ChangePassword(db, id, password, salt, env).value.0.users)
    ensures Delete(db, id).Ok? ==> WellKeyed(Delete(db, id).value.0.users)
  {
  }

  /** Reading back a freshly created row gives the row `create` returned. */
  lemma GetAfterCreate(db: Db, u: User, salt: Salt, env: Env)
    requires Create(db, u, salt, env).Ok?
    ensures Get(Create(db, u, salt, env).value.0, u.id) == Ok(Some(Create(db, u, salt, env).value.1))
  {
  }

  /** After a password change the new password checks against the row and the old one no longer does. */
  lemma ChangePasswordReplacesSecret(db: Db, id: string, previous: string, next: string, salt: Salt, env: Env)
    requires Sound(env.bcrypt) && Binding(env.bcrypt)
    requires db.reachable && id in db.users && previous != next
    ensures ChangePassword(db, id, next, salt, env).Ok?
    ensures var db' := ChangePassword(db, id, next, salt, env).value.0;
      && PasswordMatches(next, db'.users[id].password, env)
      && !PasswordMatches(previous, db'.users[id].password, env)
  {
    HashMatchesOwnPassword(env.bcrypt, next, env.pepper, salt);
    HashRejectsOtherPassword(env.bcrypt, next, previous, env.pepper, salt);
  }

  /** Deleting the same id twice reports true and then false. */
  lemma DeleteTwice(db: Db, id: string)
    requires db.reachable && id in db.users
    ensures Delete(db, id).Ok? && Delete(db, id).value.1
    ensures var db' := Delete(db, id).value.0;
      Delete(db', id).Ok? && !Delete(db', id).value.1
  {
  }

  /**
   * The sequence the model test drives: create a row, change its password,
   * delete it. Each step succeeds and reports true; a second delete reports false.
   */
  lemma CreateChangeDelete(db: Db, u: User, newPassword: string, salt1: Salt, salt2: Salt, env: Env)
    requires db.reachable && u.id !in db.users
    ensures Create(db, u, salt1, env).Ok?
    ensures var (db1, stored) := Create(db, u, salt1, env).value;
      && stored.id == u.id && stored.name == u.name && stored.email == u.email
      && ChangePassword(db1, u.id, newPassword, salt2, env).Ok?
      && var (db2, changed) := ChangePassword(db1, u.id, newPassword, salt2, env).value;
      && changed
      && Delete(db2, u.id).Ok? && Delete(db2, u.id).value.1
      && Delete(Delete(db2, u.id).value.0, u.id) == Ok((Delete(db2, u.id).value.0, false))
  {
    var (db1, stored) := Create(db, u, salt1, env).value;
    assert u.id in db1.users;
    var (db2, changed) := ChangePassword(db1, u.id, newPassword, salt2, env).value;
    assert u.id in db2.users;
    DeleteTwice(db2, u.id);
    var db3 := Delete(db2, u.id).value.0;
    assert db3.users - {u.id} == db3.users;
  }
}

=== FILE: verify_token.dfy ===
/**
 * The bearer-token gate run before every user route. The token is the
 * second field of the `Authorization` header split on a single space; the
 * first field is never looked at. Signature and expiry checking are the
 * abstract `jwtVerify`, which yields the decoded claims or nothing.
 */
module VerifyToken {
  import opened Wrappers

  /** The fields joined back together with `sep` between them. */
  function Join(parts: seq<string>, sep: char): string
    requires |parts| >= 1
  {
    if |parts| == 1 then parts[0] else parts[0] + [sep] + Join(parts[1..], sep)
  }

  /** JavaScript's `s.split(sep)` for a one-character separator. */
  function Split(s: string, sep: char): (parts: seq<string>)
    ensures |parts| >= 1
    ensures forall i :: 0 <= i < |parts| ==> sep !in parts[i]
    ensures Join(parts, sep) == s
  {
    if |s| == 0 then [""]
    else
      var rest := Split(s[1..], sep);
      if s[0] == sep then [""] + rest
      else [[s[0]] + rest[0]] + rest[1..]
  }

  /** Splitting a join of separator-free fields gives the fields back. */
  lemma {:induction false} SplitJoin(parts: seq<string>, sep: char)
    requires |parts| >= 1
    requires forall i :: 0 <= i < |parts| ==> sep !in parts[i]
    ensures Split(Join(parts, sep), sep) == parts
    decreases |Join(parts, sep)|, |parts[0]|
  {
    var s := Join(parts, sep);
    if |parts[0]| == 0 {
      if |parts| == 1 {
        assert s == "";
      } else {
        assert s == [sep] + Join(parts[1..], sep);
        assert s[1..] == Join(parts[1..], sep);
        SplitJoin(parts[1..], sep);
        assert Split(s, sep) == [""] + parts[1..];
      }
    } else {
      var tail := [parts[0][1..]] + parts[1..];
      assert s[0] == parts[0][0];
      assert s[1..] == Join(tail, sep) by {
        if |parts| == 1 {
        } else {
          assert Join(tail, sep) == parts[0][1..] + [sep] + Join(parts[1..], sep) by {
            assert tail[1..] == parts[1..];
          }
        }
      }
      assert forall i :: 0 <= i < |tail| ==> sep !in tail[i] by {
        assert forall i :: 1 <= i < |tail| ==> tail[i] == parts[i];
      }
      SplitJoin(tail, sep);
      assert Split(s, sep) == [[s[0]] + tail[0]] + tail[1..];
      assert [s[0]] + tail[0] == parts[0];
      assert tail[1..] == parts[1..];
    }
  }

  /** `s.split(sep)[i]`: `undefined` past the last field. */
  function Field(s: string, sep: char, i: nat): (f: Option<string>)
    ensures f.Some? <==> i < |Split(s, sep)|
    ensures f.Some? ==> sep !in f.value
  {
    var parts := Split(s, sep);
    if i < |parts| then Some(parts[i]) else None
  }

  /** A join of two or more fields contains the separator. */
  lemma {:induction false} JoinHasSeparator(parts: seq<string>, sep: char)
    requires |parts| >= 2
    ensures sep in Join(parts, sep)
  {
    var s := Join(parts, sep);
    assert s == parts[0] + [sep] + Join(parts[1..], sep);
    assert s[|parts[0]|] == sep;
  }

  /** `split` yields a second field exactly when the separator occurs. */
  lemma SplitHasSecondField(s: string, sep: char)
    ensures |Split(s, sep)| >= 2 <==> sep in s
  {
    var parts := Split(s, sep);
    if |parts| >= 2 {
      JoinHasSeparator(parts, sep);
    } else {
      assert s == parts[0];
    }
  }

  /** The token `verifyAuthToken` extracts: the second space-separated field. */
  function BearerToken(header: string): (t: Option<string>)
    ensures t.Some? <==> ' ' in header
    ensures t.Some? ==> ' ' !in t.value
  {
    SplitHasSecondField(header, ' ');
    Field(header, ' ', 1)
  }

  /** With one space between two words, the token is the second word, whatever the first. */
  lemma BearerTokenOfTwoWords(scheme: string, token: string)
    requires ' ' !in scheme && ' ' !in token
    ensures BearerToken(scheme + " " + token) == Some(token)
  {
    var parts := [scheme, token];
    assert Join(parts, ' ') == scheme + " " + token by {
      assert parts[1..] == [token];
    }
    SplitJoin(parts, ' ');
  }

  /** Extra fields after the token are ignored. */
  lemma BearerTokenIgnoresTrailingFields(scheme: string, token: string, rest: string)
    requires ' ' !in scheme && ' ' !in token
    ensures BearerToken(scheme + " " + token + " " + rest) == Some(token)
  {
    var tail := Split(rest, ' ');
    var parts := [scheme, token] + tail;
    assert forall i :: 0 <= i < |parts| ==> ' ' !in parts[i] by {
      assert forall i :: 2 <= i < |parts| ==> parts[i] == tail[i - 2];
    }
    assert Join(parts, ' ') == scheme + " " + token + " " + rest by {
      assert parts[1..] == [token] + tail;
      assert ([token] + tail)[1..] == tail;
    }
    SplitJoin(parts, ' ');
  }

  /** A header with no space has no token. */
  lemma NoSpaceNoToken(header: string)
    requires ' ' !in header
    ensures BearerToken(header) == None
  {
    SplitJoin([header], ' ');
  }

  /** What the gate decides: stop with 401, or carry on with the decoded claims attached. */
  datatype Decision<C> = Rejected | Accepted(jwtPayload: C)

  /**
   * `verifyAuthToken`. An absent or empty header rejects (`!authorizationHeader`);
   * a header without a second field rejects (verifying `undefined` throws); otherwise
   * the signature check decides, and its claims are passed on uninspected.
   */
  function VerifyAuthToken<C>(authorization: Option<string>, jwtVerify: string -> Option<C>): (d: Decision<C>)
    ensures authorization == None || authorization == Some("") ==> d == Rejected
    ensures d.Accepted? <==>
      authorization.Some? && authorization.value != "" &&
      BearerToken(authorization.value).Some? && jwtVerify(BearerToken(authorization.value).value).Some?
    ensures d.Accepted? ==> jwtVerify(BearerToken(authorization.value).value) == Some(d.jwtPayload)
  {
    match authorization
    case None => Rejected
    case Some(header) =>
      if header == "" then Rejected
      else
        match BearerToken(header)
        case None => Rejected
        case Some(token) =>
          match jwtVerify(token)
          case None => Rejected
          case Some(claims) => Accepted(claims)
  }

  /** For a well-formed `<scheme> <token>` header the signature check alone decides, and the scheme word is never checked. */
  lemma GateOnTwoWordHeader<C>(scheme: string, token: string, jwtVerify: string -> Option<C>)
    requires ' ' !in scheme && ' ' !in token
    ensures VerifyAuthToken(Some(scheme + " " + token), jwtVerify) ==
      (match jwtVerify(token) case None => Rejected case Some(claims) => Accepted(claims))
  {
    BearerTokenOfTwoWords(scheme, token);
  }

  /** A one-word header (for instance the bare token, or "Bearer" alone) is always rejected. */
  lemma GateRejectsOneWordHeader<C>(header: string, jwtVerify: string -> Option<C>)
    requires ' ' !in header
    ensures VerifyAuthToken(Some(header), jwtVerify) == Rejected
  {
    NoSpaceNoToken(header);
  }
}

=== FILE: wrappers.dfy ===
/** Optional values and fallible results shared by every module of the model. */
module Wrappers {

  /** A value that may be absent; `None` plays the part of JavaScript's `undefined`. */
  datatype Option<T> = None | Some(value: T)

  /** The outcome of an operation that may throw: `Err` carries what was thrown. */
  datatype Result<T, E> = Ok(value: T) | Err(error: E)
}
